=== FILE: README.md ===
# doozer client connection, modelled in Dafny

This project models the connection layer of the doozer Go client (`conn.go`). It covers five parts:

- **Frame codec** (`frame.dfy`): `read`/`write` put a 4-byte big-endian signed length in front of each message. `readAll` is the reader loop that pulls frames off the stream until the first error.
- **Multiplexer** (`mux.dfy`): `mux` and `Close`, as a single-threaded state machine over a tag table. Each arm of the `select` is one pure step:
  - a submission takes an unused tag, stores the transaction, stamps the tag on the request, marshals it and writes it;
  - a delivery hands a decoded response to the transaction holding its tag;
  - a reader error or a pending stop takes the `error:` exit, which fails every waiting transaction.
- **`call` and the operations built on it** (`client.dfy`):
  - how `call` picks its result;
  - the per-entry pagination shared by `Getdir` and `Walk`;
  - `Stat`, `Statinfo` and `Getdirinfo`.
- **Connection strings** (`resolver.dfy`):
  - how `dialUri` turns a `doozer:?` URI into a dialled address, directly from `ca` values or through `lookup` of a cluster name (`cn`) over a bootstrap connection;
  - the optional `Access` with the secret (`sk`).
- **Shared records** (`protocol.dfy`, `wrappers.dfy`): requests, responses, errors, `FileInfo`, `Event`, `basename`, Go's `int32` conversion, and `Option`/`Result`.

The library is reproduced as written, including its sharp edges:

- **Tags are not lowest-free.** Tags are found by scanning upward from a counter that never moves back, so a tag freed below the counter is skipped.
- **A marshal failure leaves a nil slot.** The failed request's tag keeps a nil slot in the table. The next submission reuses that tag. If the connection shuts down while the slot is still there, the shutdown loop dereferences it and the process panics.
- **The length prefix is signed.** It is written as `int32(len)`. A negative prefix read back makes `make` panic.
- **`Getdirinfo` returns the last lookup's error** alongside a complete list.
- **An empty candidate list panics.** This happens, for example, when the cluster's directory is absent. `rand.Int() % 0` panics instead of reporting an error.
- **`lookup` drops listing errors that are not `*Error`.** Its `if` statement declares a new `err` from the type assertion, so the `err != nil` test that follows sees a nil `*Error` whenever the listing failed with a plain error (a closed connection, a broken stream). `lookup` then returns no addresses and no error, and `dialUri` panics on the empty candidate list.

The outside world enters as parameters:

- the message codec's answers (`encoded`, `decoded`);
- the outcome of each write;
- the answer `call` gives to each request (`Client.Calls`);
- the query parser, the dialler and the random pick (`Resolver.Net`).

## Model

| member | source | states |
|---|---|---|
| Protocol.Int32 | conn.go:290 | Go's `int32(n)` lands in the signed 32-bit range, differs from `n` by a multiple of 2^32 and is the identity on values already in range |
| Protocol.Basename | conn.go:418 | the base name is a suffix of the path containing no '/', and when shorter than the path it is preceded by '/' |
| Protocol.BasenameOfChild | conn.go:418 | a name without '/' placed after any prefix ending in '/' is its own base name |
| Protocol.Int32Same | conn.go:364 | two offsets give the same `int32` exactly when they differ by a multiple of 2^32 |
| Frame.Int32BERoundTrip | conn.go:273-297 | decoding the big-endian 4 bytes of a 32-bit signed value gives the value back |
| Frame.Int32BEOfRead | conn.go:273-297 | encoding a decoded 4-byte header reproduces the same 4 bytes |
| Frame.Write | conn.go:289-297 | a frame is 4 header bytes reading back as `int32(len(buf))` followed by the payload unchanged |
| Frame.Read | conn.go:273-287 | empty stream gives EOF; a partial header gives unexpected EOF; a negative size panics; a positive size with nothing after the header gives EOF, a short body unexpected EOF; otherwise the stream is exactly a written frame followed by the rest |
| Frame.ReadWrite | conn.go:273-297 | reading a written frame (payload under 2^31 bytes) returns that payload and leaves the following bytes untouched |
| Frame.ReadAll | conn.go:261-271 | the frames the reader loop delivers, re-framed, are a prefix of the stream, and the read of what follows them failed (its error is reported) or panicked (the loop crashed) |
| Frame.ReadAllWriteAll | conn.go:261-297 | a stream of written frames is delivered frame by frame and ends with EOF reported to the multiplexer |
| Mux.Close | conn.go:184-189 | `Close` only marks a stop as pending; table, counter, error and exit state are untouched |
| Mux.CloseTimes | conn.go:184-189 | closing any positive number of times leaves a stop pending and keeps the table, the tag counter, the error and the exit flag |
| Mux.CloseIdempotent | conn.go:184-189 | closing k+1 times is the same state as closing once (the capacity-1 stop channel drops extra sends) |
| Mux.RepeatedCloseShutsDownOnce | conn.go:184-189 | after any number of closes one stop event shuts the connection down with `ErrClosed`, panicking exactly when a nil slot is in the table; every later close or event changes nothing |
| Mux.NextFree | conn.go:199-202 | the tag search returns the first value at or above the counter that no live transaction holds, and every value skipped is held |
| Mux.Shutdown | conn.go:251-258 | the exit records the error, empties the table and marks the multiplexer stopped; it panics exactly when a nil slot is present, and otherwise fails exactly the waiting transactions with that error |
| Mux.HandleSubmit | conn.go:198-221 | the assigned tag is the first value at or above the counter that no live transaction holds; marshal failure leaves a nil slot and fails only the submitter; success stores the transaction under its tag with the tag stamped and writes its frame; a write error shuts the connection down with that error |
| Mux.HandleDeliver | conn.go:222-242 | undecodable, untagged and unknown-tag responses change nothing; a response for a live tag removes exactly that tag and completes its transaction with the response |
| Mux.Step | conn.go:191-248 | an exited multiplexer ignores everything; the counter never decreases; a reader error or a pending stop exits with that error or `ErrClosed`; a stop with none pending is a no-op |
| Mux.InitialInv | conn.go:192-194 | a fresh connection satisfies the table invariant |
| Mux.StepKeepsInv | conn.go:191-259 | every step preserves the invariant: keys not above the counter, each live request tagged with its own key, one tag per caller, an error recorded exactly when exited, an exited table empty |
| Mux.StepAccounts | conn.go:196-256 | in one step without a panic, the callers waiting before plus the one admitted equal those waiting after plus those completed, disjointly, with one completion per caller |
| Mux.SubmitAccounts | conn.go:198-221 | the same conservation for the submission arm, including its write-error exit |
| Mux.DeliverAccounts | conn.go:222-242 | the same conservation for the delivery arm |
| Mux.ShutdownAccounts | conn.go:251-256 | a shutdown without a panic completes exactly the waiting callers, each once |
| Mux.Run | conn.go:196-249 | a run without a panic handles every input, one output each; a run stops early only right after a panic; an exited connection is left unchanged |
| Mux.RunCompletesEachOnce | conn.go:191-259 | over any panic-free run from an invariant state with fresh submitters, waiting plus admitted callers equal completed plus still-waiting ones, no caller is completed in two steps or twice in one, and the invariant still holds |
| Mux.StoppedRunCompletesEveryone | conn.go:251-258 | when a panic-free run ends with the multiplexer exited, every caller waiting or admitted has been completed |
| Mux.NilSlotIsReused | conn.go:199-215 | after a marshal failure the failed tag's nil slot stays in the table and the next submission is given that same tag |
| Mux.NilSlotPanicsShutdown | conn.go:209-255 | a stop or reader error while that nil slot is in the table makes the shutdown loop panic |
| Mux.TagsAreNotLowestFree | conn.go:199-203 | tags 0 and 1 are handed out, tag 0 is answered and freed, and the next submission still gets tag 2 |
| Client.RecordOf | conn.go:240-255 | a completed transaction holds either a response or an error, never both, matching how it was completed |
| Client.Call | conn.go:166-181 | an exited connection returns its recorded error; otherwise a local error wins, then a server error code becomes a structured error; success exactly when neither is present, returning the response |
| Client.CloseFailsEveryCall | conn.go:166-189 | after a close is handled, every transaction it completes and every later call fails with `ErrClosed` |
| Client.SameRequestOffsets | conn.go:358-364 | GETDIR requests (and likewise the WALK requests of conn.go:445-451) for two offsets are identical exactly when the offsets differ by a multiple of 2^32, so the server sees offset 2^32 as offset 0 |
| Client.Paginate | conn.go:359-376 | lim 0 asks nothing; at most lim entries; entry i answers offset off+i; a listing shorter than lim ended on "out of range"; any other error is the one at the first failing offset within the limit |
| Client.EntriesAt | conn.go:359-376 | the i-th entry of a listing is the entry of the answer to the request at offset off + i |
| Client.PaginateStep | conn.go:359-376 | the same guarantees after one entry has arrived |
| Client.EntriesBeforeStop | conn.go:359-376 | every entry of a listing was answered at an offset below any offset that failed |
| Client.ListingLength | conn.go:358-377 | against a listing that runs to an "out of range" at offset n, any lim succeeds with min(lim, n - off) entries, and a negative lim returns all n - off |
| Client.Getdir | conn.go:358-377 | `Getdir` returns the names answered at consecutive offsets, at most lim of them; a shorter listing ended on "out of range"; an error is never "out of range" and is the one at the first GETDIR that failed within the limit |
| Client.Walk | conn.go:445-469 | `Walk` returns the events answered at consecutive offsets, at most lim of them; a shorter listing ended on "out of range"; an error is never "out of range" and is the one at the first WALK that failed within the limit |
| Client.Statinfo | conn.go:409-439 | a failed STAT passes its error through; a response carrying the "missing" revision becomes `ErrNoEnt`; success exactly otherwise, with the response's length and revision, the base name of the path, `IsSet`, and `IsDir` exactly for the "dir" revision |
| Client.ChildPath | conn.go:390-396 | an entry's path is the directory, a '/' unless the directory is the root, then the name |
| Client.ChildPathBasename | conn.go:390-418 | a listed name without '/' is the base name of its entry's path |
| Client.InfoOf | conn.go:394-401 | an entry is its `Statinfo` when that succeeds and otherwise the name alone, so a listed name without '/' is kept as the entry's name |
| Client.Getdirinfo | conn.go:384-404 | a listing error returns nothing but that error; otherwise one entry per listed name, each its metadata or its name alone; the error returned is set exactly when the last name's lookup failed, and is that lookup's error |
| Resolver.Text | conn.go:161 | `string(body)` has one character per byte with the same value |
| Resolver.Bytes | conn.go:303 | the token's bytes, one per character |
| Resolver.BytesOfText | conn.go:161 | bytes converted to text and back are unchanged |
| Resolver.FetchAll | conn.go:155-163 | on success, one body per name, each the body of `dir/name` at the revision; on failure, the error of the first GET that failed |
| Resolver.Lookup | conn.go:141-164 | a failing REV aborts; a listing that fails with "no such entry" or with an error that is not an `*Error` is an empty answer; a listing that fails with any other `*Error` aborts with it; otherwise the bodies of the listed registrations |
| Resolver.LookupReadsRegistrations | conn.go:141-164 | every address `lookup` returns is the body of a registration file under the cluster directory at the reported revision; a non-empty answer has one address per listed name, the i-th being the body of the i-th name |
| Resolver.CandidatesOf | conn.go:90-109 | with `cn` and a bootstrap URI the candidates are what `lookup` finds over the bootstrap connection (its failures pass through); otherwise the `ca` values; with neither, an invalid URI |
| Resolver.Connect | conn.go:111-125 | no candidates is a panic; otherwise, for the picked candidate, a failed dial returns its error, a refused secret returns the refusal with that candidate's connection closed, and otherwise it is connected; conversely a connection or a closed connection is always to the picked candidate |
| Resolver.DialUri | conn.go:78-126 | a URI without the `doozer:?` prefix is invalid; a query the parser rejects returns the parser's error; otherwise the outcome is the candidate step's, or dialling the chosen candidate |
| Resolver.ConnectedToCandidate | conn.go:78-126 | a connection is only ever to a listed candidate that dialled successfully and accepted the secret if one was given |
| Resolver.DirectAddresses | conn.go:103-114 | a URI with only `ca` values dials the picked one of them, e.g. `doozer:?ca=1.2.3.4:9999` dials `1.2.3.4:9999` |
| Resolver.ClusterNeedsBootstrap | conn.go:92-108 | a cluster name with no bootstrap URI and no `ca` is an invalid URI |
| Resolver.AbsentClusterIsEmpty | conn.go:147-151 | a cluster whose directory does not exist has no addresses, which is not an error |
| Resolver.AbsentClusterPanics | conn.go:92-111 | dialling such a cluster then panics on the empty candidate list |
| Resolver.LostListingIsEmpty | conn.go:148-163 | when the bootstrap listing stops at some offset with an error that is not an `*Error`, `lookup` returns no addresses and no error |
| Resolver.ServerListingErrorAborts | conn.go:148-153 | a server error other than "no such entry" or "out of range" on the listing, after any number of entries, aborts `lookup` with that error |
| Resolver.EmptyLookupPanics | conn.go:98-111 | a cluster lookup that returns no addresses makes `dialUri` panic on the empty candidate list |
| Resolver.ClosedBootstrapPanics | conn.go:98-111 | a bootstrap connection closed before answering the first GETDIR makes `dialUri` panic rather than report the error |
| Resolver.RefusedSecretIsReported | conn.go:111-122 | when the picked candidate dials but refuses the `sk` secret, `dialUri` returns the refusal and closes that candidate's connection |
| Resolver.RefusedSecretCloses | conn.go:116-122 | a closed-then-failed outcome comes from a refused `Access`, either of this URI's secret or passed on from the bootstrap dial |

Members without a row are internal helpers, and the rows above state their meaning:
- the header codec `Frame.Int32BE` and `Frame.ReadInt32BE`, stated by `Frame.Int32BERoundTrip` and `Frame.Int32BEOfRead`;
- the request builders `Client.GetdirRequest`, `Client.WalkRequest`, `Client.StatRequest`, `Resolver.RevRequest`, `Resolver.GetRequest` and `Resolver.AccessRequest`, stated by `Client.SameRequestOffsets`, `Client.Statinfo` and the resolver's rows;
- the per-offset answers `Client.GetdirAnswers` and `Client.WalkAnswers` and the entry extractors `Client.PathOf` and `Client.EventOf`, stated by `Client.Getdir` and `Client.Walk`;
- `Client.Stat`, stated by `Client.Statinfo`;
- `Protocol.NameOnly`, `Resolver.NsDir` and `Resolver.HasPrefix`, stated by `Client.InfoOf`, `Resolver.Lookup` and `Resolver.DialUri`.

## Left out

- Goroutines, channels and `select`: a run is one sequence of inputs, in any interleaving the caller chooses. Blocking and the race between `call` and the stop signal are not modelled; `Call` is given the connection state the caller observed.
- `dial`, `Dial` and `DialTimeout`: they only open the stream and start the two goroutines. `Mux.Initial` is the state they create, and the dial outcome is `Net.dial`. Timeouts are not modelled.
- The message codec (`proto.Marshal`/`Unmarshal`): its answers are inputs to the multiplexer.
- Logging of dropped responses: a dropped response is a no-op step.
- Closing the socket and `close(c.stopped)`: represented by the `stopped` flag.
- Mux.NextFree: the `int32` wrap-around of the tag counter after 2^31 submissions is not modelled; the counter is unbounded.
- Paginate: `lim` and `off` are unbounded, so the 64-bit `int` wrap of `lim--` and `off++` is not modelled. Only the `int32(off)` truncation of the request offset is.
- Paginate: an unbounded listing against a server that never answers "out of range" loops forever in Go. The model requires the listing to end (`Ends`, `LookupEnds`, `ListingsEnd`).
- Response fields are plain values. The panic on dereferencing an absent field (`*t.resp.Rev`, `*t.resp.Path`, ...) is not modelled.
- The values of the `missing` and `dir` revisions: they are defined outside `conn.go`. The model uses distinct stand-ins.
- `Set`, `Del`, `Nop` and `Wait` are not modelled. They are one `call` plus field extraction, with `Wait` also masking the flags. `Get`, `Rev` and `Access` appear only as the requests `lookup` and `dialUri` send.
- Resolver.Bytes: Go sends the token's UTF-8 bytes. The model takes one byte per character, so it agrees for ASCII secrets only.
- `rand.Int()` is the `Net.pick` parameter, keyed by the `(uri, buri)` pair of the dial. `url.ParseQuery` is `Net.parse`.
- The bootstrap connection `dialUri` opens for a lookup is never closed in Go. The leak is not represented.

=== FILE: client.dfy ===
/** The client operations layered on `call` in conn.go: the result selection
    of `call` itself, the per-entry pagination of `Getdir` and `Walk`, and the
    `Stat`-based `Statinfo` and `Getdirinfo`. An operation sees the server only
    through what `call` returns for each request it builds. */
module Client {
  import opened Wrappers
  import opened Protocol
  import Mux

  // ---------------------------------------------------------------- call

  /** A transaction's fields once its `done` channel has fired. */
  datatype TxnRecord = TxnRecord(resp: Option<Response>, err: Option<Err>)

  /** How the multiplexer's completion of a transaction fills its fields. */
  function RecordOf(x: Mux.Completion): (t: TxnRecord)
    ensures t.resp.Some? != t.err.Some?
    ensures x.Replied? ==> t.resp == Some(x.resp)
    ensures x.Failed? ==> t.err == Some(x.err)
  {
    match x
    case Replied(_, resp) => TxnRecord(Some(resp), None)
    case Failed(_, e) => TxnRecord(None, Some(e))
  }

  /** `call`'s result. If the multiplexer has already exited, the recorded
      connection error comes back without submitting anything; otherwise the
      transaction completed, and a local error wins over the response, whose
      error code in turn becomes a structured error. */
  function Call(c: Mux.Conn, t: TxnRecord): (r: Result<Response, Err>)
    requires c.stopped ==> c.err.Some?
    requires !c.stopped ==> t.resp.Some? || t.err.Some?
    ensures c.stopped ==> r == Failure(c.err.value)
    ensures !c.stopped && t.err.Some? ==> r == Failure(t.err.value)
    ensures !c.stopped && t.err.None? && t.resp.value.errCode.Some? ==>
      r == Failure(Server(t.resp.value.errCode.value))
    ensures r.Success? <==> !c.stopped && t.err.None? && t.resp.value.errCode.None?
    ensures r.Success? ==> Some(r.value) == t.resp && r.value.errCode.None?
  {
    if c.stopped then Failure(c.err.value)
    else if t.err.Some? then Failure(t.err.value)
    else if t.resp.value.errCode.Some? then Failure(Server(t.resp.value.errCode.value))
    else Success(t.resp.value)
  }

  /** Closing fails every call: a caller still waiting when the stop is
      handled gets `ErrClosed`, and so does every later call. */
  lemma CloseFailsEveryCall(c: Mux.Conn, x: Mux.Completion, u: TxnRecord)
    requires !c.stopped
    requires x in Mux.Step(Mux.Close(c), Mux.Stop).out.done
    ensures Call(c, RecordOf(x)) == Failure(Closed)
    ensures Call(Mux.Step(Mux.Close(c), Mux.Stop).conn, u) == Failure(Closed)
  {
  }

  /** What `call` returns for each request a client operation builds: the
      server's behaviour together with the connection's. */
  type Calls = Request -> Result<Response, Err>

  // ---------------------------------------------------------------- requests

  /** The GETDIR request for the entry at `off`; the offset travels as
      `int32(off)`. */
  function GetdirRequest(dir: string, rev: int, off: int): Request {
    Request(GETDIR, dir, [], Some(rev), Some(Int32(off)), None)
  }

  /** The WALK request for the event at `off`; the offset travels as
      `int32(off)`. */
  function WalkRequest(glob: string, rev: int, off: int): Request {
    Request(WALK, glob, [], Some(rev), Some(Int32(off)), None)
  }

  function StatRequest(path: string, rev: Option<int>): Request {
    Request(STAT, path, [], rev, None, None)
  }

  /** Because the offset is truncated to 32 bits, the requests for two
      offsets are the same request exactly when the offsets differ by a
      multiple of 2^32: a listing past offset 2^31 - 1 asks again for entries
      at negative offsets. */
  lemma SameRequestOffsets(path: string, rev: int, o1: int, o2: int)
    ensures GetdirRequest(path, rev, o1) == GetdirRequest(path, rev, o2) <==> (o1 - o2) % Two32 == 0
    ensures WalkRequest(path, rev, o1) == WalkRequest(path, rev, o2) <==> (o1 - o2) % Two32 == 0
  {
    Int32Same(o1, o2);
  }

  // ---------------------------------------------------------------- pagination

  /** The answer to the per-entry request at each offset. */
  type Answers = int -> Result<Response, Err>

  /** The listing stops at offset `off`: the request there does not return
      an entry. */
  predicate StopsAt(ask: Answers, off: int) {
    ask(off).Failure?
  }

  /** From offset `off` on, the listing stops somewhere. */
  ghost predicate Ends(ask: Answers, off: int) {
    exists o :: off <= o && StopsAt(ask, o)
  }

  /** No stop in the offsets [from, to). */
  ghost predicate Runs(ask: Answers, from: int, to: int) {
    forall p :: from <= p < to ==> ask(p).Success?
  }

  lemma {:induction false} LeastStop(ask: Answers, off: int, o: int)
    requires off <= o && StopsAt(ask, o)
    ensures exists s :: off <= s <= o && StopsAt(ask, s) && Runs(ask, off, s)
    decreases o - off
  {
    if exists p :: off <= p < o && StopsAt(ask, p) {
      var p :| off <= p < o && StopsAt(ask, p);
      LeastStop(ask, off, p);
    } else {
      forall p | off <= p < o ensures ask(p).Success? {
        assert !StopsAt(ask, p);
      }
    }
  }

  /** The first offset at or after `off` where the listing stops. */
  ghost function FirstStop(ask: Answers, off: int): (s: int)
    requires Ends(ask, off)
    ensures off <= s && StopsAt(ask, s) && Runs(ask, off, s)
  {
    var o :| off <= o && StopsAt(ask, o);
    LeastStop(ask, off, o);
    var s :| off <= s <= o && StopsAt(ask, s) && Runs(ask, off, s);
    s
  }

  lemma FirstStopStep(ask: Answers, off: int)
    requires Ends(ask, off) && !StopsAt(ask, off)
    ensures Ends(ask, off + 1)
    ensures FirstStop(ask, off + 1) == FirstStop(ask, off)
  {
    var s := FirstStop(ask, off);
    assert off + 1 <= s && StopsAt(ask, s);
    var t := FirstStop(ask, off + 1);
  }

  /** `xs` are the entries answered at offsets off, off + 1, ... */
  ghost predicate Entries<T>(ask: Answers, entry: Response -> T, off: int, xs: seq<T>)
    decreases |xs|
  {
    |xs| == 0 || (ask(off).Success? && xs[0] == entry(ask(off).value) && Entries(ask, entry, off + 1, xs[1..]))
  }

  lemma EntriesCons<T>(ask: Answers, entry: Response -> T, off: int, resp: Response, xs: seq<T>)
    requires ask(off) == Success(resp) && Entries(ask, entry, off + 1, xs)
    ensures Entries(ask, entry, off, [entry(resp)] + xs)
  {
    assert ([entry(resp)] + xs)[1..] == xs;
  }

  /** Entry i of a listing is the answer at offset off + i. */
  lemma {:induction false} EntriesAt<T>(ask: Answers, entry: Response -> T, off: int, xs: seq<T>, i: int)
    requires Entries(ask, entry, off, xs) && 0 <= i < |xs|
    ensures ask(off + i).Success? && xs[i] == entry(ask(off + i).value)
    decreases i
  {
    if i > 0 {
      EntriesAt(ask, entry, off + 1, xs[1..], i - 1);
      assert xs[1..][i - 1] == xs[i];
      assert (off + 1) + (i - 1) == off + i;
    }
  }

  /** A listing's entries all come before any offset that failed. */
  lemma {:induction false} EntriesBeforeStop<T>(ask: Answers, entry: Response -> T, off: int, xs: seq<T>, o: int)
    requires Entries(ask, entry, off, xs) && off <= o && ask(o).Failure?
    ensures off + |xs| <= o
    decreases |xs|
  {
    if |xs| > 0 {
      EntriesBeforeStop(ask, entry, off + 1, xs[1..], o);
    }
  }

  /** The loop shared by `Getdir` and `Walk`: ask for the entry at the current
      offset, advance the offset, count `lim` down; a negative `lim` never
      reaches zero. "Out of range" ends the listing successfully, any other
      error aborts it and discards what was read. */
  function Paginate<T>(ask: Answers, entry: Response -> T, off: int, lim: int): (r: Result<seq<T>, Err>)
    requires lim >= 0 || Ends(ask, off)
    // no request when lim is zero, never more than lim entries
    ensures lim == 0 ==> r == Success([])
    ensures r.Success? && lim >= 0 ==> |r.value| <= lim
    // entry i is the answer to the request at offset off + i
    ensures r.Success? ==> Entries(ask, entry, off, r.value)
    // a listing shorter than lim ended on "out of range"
    ensures r.Success? && |r.value| != lim ==>
      ask(off + |r.value|).Failure? && IsRange(ask(off + |r.value|).error)
    // any other error is the one at the first offset that failed
    ensures r.Failure? ==> !IsRange(r.error) && exists o ::
      && off <= o && (lim < 0 || o < off + lim)
      && ask(o) == Failure(r.error) && Runs(ask, off, o)
    decreases if lim >= 0 then lim else FirstStop(ask, off) - off
  {
    if lim == 0 then Success([])
    else
      match ask(off)
      case Failure(e) => if IsRange(e) then Success([]) else Failure(e)
      case Success(resp) =>
        if lim < 0 then FirstStopStep(ask, off); PaginateStep(ask, entry, off, lim, resp)
        else PaginateStep(ask, entry, off, lim, resp)
  }

  /** One round of `Paginate` after the entry at `off` arrived. */
  function PaginateStep<T>(ask: Answers, entry: Response -> T, off: int, lim: int, resp: Response): (r: Result<seq<T>, Err>)
    requires lim != 0 && ask(off) == Success(resp)
    requires lim > 0 || (Ends(ask, off) && Ends(ask, off + 1) && FirstStop(ask, off + 1) == FirstStop(ask, off))
    ensures r.Success? && lim >= 0 ==> |r.value| <= lim
    ensures r.Success? ==> Entries(ask, entry, off, r.value)
    ensures r.Success? && |r.value| != lim ==>
      ask(off + |r.value|).Failure? && IsRange(ask(off + |r.value|).error)
    ensures r.Failure? ==> !IsRange(r.error) && exists o ::
      && off <= o && (lim < 0 || o < off + lim)
      && ask(o) == Failure(r.error) && Runs(ask, off, o)
    decreases if lim >= 0 then lim else FirstStop(ask, off) - off, 0
  {
    match Paginate(ask, entry, off + 1, lim - 1)
    case Failure(e) => Failure(e)
    case Success(xs) =>
      var ys := [entry(resp)] + xs;
      EntriesCons(ask, entry, off, resp, xs);
      Success(ys)
  }

  /** Against a server whose listing runs from `off` up to an "out of range"
      at offset `n`, a listing succeeds with min(lim, n - off) entries, and
      an unbounded one (negative `lim`) ends and returns all n - off. */
  lemma {:induction false} ListingLength<T>(ask: Answers, entry: Response -> T, off: int, lim: int, n: int)
    requires off <= n && Runs(ask, off, n) && ask(n).Failure? && IsRange(ask(n).error)
    ensures Ends(ask, off)
    ensures Paginate(ask, entry, off, lim).Success?
    ensures |Paginate(ask, entry, off, lim).value| == if 0 <= lim < n - off then lim else n - off
    decreases n - off
  {
    assert StopsAt(ask, n);
    if off < n && lim != 0 {
      assert ask(off).Success?;
      FirstStopStep(ask, off);
      ListingLength(ask, entry, off + 1, lim - 1, n);
    }
  }

  // ---------------------------------------------------------------- Getdir, Walk

  /** What `call` returns for the GETDIR request at each offset. */
  function GetdirAnswers(calls: Calls, dir: string, rev: int): Answers {
    o => calls(GetdirRequest(dir, rev, o))
  }

  /** What `call` returns for the WALK request at each offset. */
  function WalkAnswers(calls: Calls, glob: string, rev: int): Answers {
    o => calls(WalkRequest(glob, rev, o))
  }

  function PathOf(resp: Response): string {
    resp.path
  }

  /** The event a WALK response describes; the flags are copied unmasked. */
  function EventOf(resp: Response): Event {
    Event(resp.rev, resp.path, resp.value, resp.flags)
  }

  /** `Getdir`: up to `lim` names of `dir` at revision `rev`, one GETDIR
      request per name, from position `off`. */
  function Getdir(calls: Calls, dir: string, rev: int, off: int, lim: int): (r: Result<seq<string>, Err>)
    requires lim >= 0 || Ends(GetdirAnswers(calls, dir, rev), off)
    ensures lim == 0 ==> r == Success([])
    ensures r.Success? && lim >= 0 ==> |r.value| <= lim
    ensures r.Success? ==> Entries(GetdirAnswers(calls, dir, rev), PathOf, off, r.value)
    // a listing shorter than lim ended on "out of range"
    ensures r.Success? && |r.value| != lim ==>
      var stop := calls(GetdirRequest(dir, rev, off + |r.value|));
      stop.Failure? && IsRange(stop.error)
    // any other error is the one at the first offset that failed
    ensures r.Failure? ==> !IsRange(r.error) && exists o ::
      && off <= o && (lim < 0 || o < off + lim)
      && calls(GetdirRequest(dir, rev, o)) == Failure(r.error)
      && Runs(GetdirAnswers(calls, dir, rev), off, o)
  {
    Paginate(GetdirAnswers(calls, dir, rev), PathOf, off, lim)
  }

  /** `Conn.Walk`: up to `lim` events matching `glob` at revision `rev`, one
      WALK request per event, from position `off`. The flags are copied
      unmasked. */
  function Walk(calls: Calls, glob: string, rev: int, off: int, lim: int): (r: Result<seq<Event>, Err>)
    requires lim >= 0 || Ends(WalkAnswers(calls, glob, rev), off)
    ensures lim == 0 ==> r == Success([])
    ensures r.Success? && lim >= 0 ==> |r.value| <= lim
    ensures r.Success? ==> Entries(WalkAnswers(calls, glob, rev), EventOf, off, r.value)
    // a listing shorter than lim ended on "out of range"
    ensures r.Success? && |r.value| != lim ==>
      var stop := calls(WalkRequest(glob, rev, off + |r.value|));
      stop.Failure? && IsRange(stop.error)
    // any other error is the one at the first offset that failed
    ensures r.Failure? ==> !IsRange(r.error) && exists o ::
      && off <= o && (lim < 0 || o < off + lim)
      && calls(WalkRequest(glob, rev, o)) == Failure(r.error)
      && Runs(WalkAnswers(calls, glob, rev), off, o)
  {
    Paginate(WalkAnswers(calls, glob, rev), EventOf, off, lim)
  }

  // ---------------------------------------------------------------- Stat, Statinfo

  /** `Stat`: the length and file revision a STAT request reports. */
  function Stat(calls: Calls, path: string, rev: Option<int>): Result<(int, int), Err> {
    match calls(StatRequest(path, rev))
    case Failure(e) => Failure(e)
    case Success(resp) => Success((resp.len, resp.rev))
  }

  /** `Statinfo`: the metadata of `path` at revision `rev`. The "missing"
      sentinel becomes `ErrNoEnt`; the "dir" sentinel sets the directory flag;
      the name is the final path segment. */
  function Statinfo(calls: Calls, rev: int, path: string): (r: Result<FileInfo, Err>)
    // a failed STAT passes its error through; the "missing" revision is ErrNoEnt
    ensures calls(StatRequest(path, Some(rev))).Failure? ==> r == Failure(calls(StatRequest(path, Some(rev))).error)
    ensures calls(StatRequest(path, Some(rev))).Success? && calls(StatRequest(path, Some(rev))).value.rev == Missing ==>
      r == Failure(NoEnt)
    ensures r.Success? <==>
      calls(StatRequest(path, Some(rev))).Success? && calls(StatRequest(path, Some(rev))).value.rev != Missing
    // metadata: the reported length and revision, the final path segment,
    // always set, a directory exactly for the "dir" revision
    ensures r.Success? ==>
      var resp := calls(StatRequest(path, Some(rev))).value;
      && r.value.len == resp.len && r.value.rev == resp.rev
      && r.value.name == Basename(path)
      && r.value.isSet
      && (r.value.isDir <==> r.value.rev == Dir)
  {
    match Stat(calls, path, Some(rev))
    case Failure(e) => Failure(e)
    case Success((len, fileRev)) =>
      if fileRev == Missing then Failure(NoEnt)
      else Success(FileInfo(Basename(path), len, fileRev, true, fileRev == Dir))
  }

  // ---------------------------------------------------------------- Getdirinfo

  /** The path of entry `name` in directory `dir`: a '/' is put between them
      unless `dir` is the root "/". */
  function ChildPath(dir: string, name: string): (p: string)
    ensures |p| > |name| && p[|p| - |name|..] == name && p[|p| - |name| - 1] == '/'
    ensures p[..|p| - |name| - 1] == if dir == "/" then "" else dir
  {
    var d := if dir != "/" then dir + "/" else dir;
    assert d + name == d[..|d| - 1] + ['/'] + name;
    d + name
  }

  /** A name without '/' comes back as the name of its child path. */
  lemma ChildPathBasename(dir: string, name: string)
    requires '/' !in name
    ensures Basename(ChildPath(dir, name)) == name
  {
    var p := ChildPath(dir, name);
    assert p == p[..|p| - |name|] + name;
    BasenameOfChild(p[..|p| - |name|], name);
  }

  /** What a listed name becomes in `Getdirinfo`: its metadata, or the name
      alone when its `Statinfo` failed. */
  function InfoOf(calls: Calls, rev: int, dir: string, name: string): (f: FileInfo)
    ensures Statinfo(calls, rev, ChildPath(dir, name)).Success? ==> f == Statinfo(calls, rev, ChildPath(dir, name)).value
    ensures Statinfo(calls, rev, ChildPath(dir, name)).Failure? ==> f == NameOnly(name)
    ensures '/' !in name ==> f.name == name
  {
    assert '/' !in name ==> Basename(ChildPath(dir, name)) == name by {
      if '/' !in name {
        ChildPathBasename(dir, name);
      }
    }
    match Statinfo(calls, rev, ChildPath(dir, name))
    case Success(f) => f
    case Failure(_) => NameOnly(name)
  }

  /** `Getdirinfo`: list `dir`, then look up each name. A failed lookup
      degrades that entry to its name alone instead of aborting, and since the
      error is the function's named result, the error of the LAST lookup is
      returned alongside the full list. */
  method Getdirinfo(calls: Calls, dir: string, rev: int, off: int, lim: int) returns (a: seq<FileInfo>, err: Option<Err>)
    requires lim >= 0 || Ends(GetdirAnswers(calls, dir, rev), off)
    ensures Getdir(calls, dir, rev, off, lim).Failure? ==>
      a == [] && err == Some(Getdir(calls, dir, rev, off, lim).error)
    ensures Getdir(calls, dir, rev, off, lim).Success? ==>
      var names := Getdir(calls, dir, rev, off, lim).value;
      && |a| == |names|
      && (forall i :: 0 <= i < |a| ==> a[i] == InfoOf(calls, rev, dir, names[i]))
      && (forall i :: 0 <= i < |a| && '/' !in names[i] ==> a[i].name == names[i])
      && (|names| == 0 ==> err == None)
      // the error is set exactly when the last lookup failed, and is its error
      && (|names| > 0 ==>
            var last := Statinfo(calls, rev, ChildPath(dir, names[|names| - 1]));
            (err.Some? <==> last.Failure?) && (last.Failure? ==> err == Some(last.error)))
  {
    var listed := Getdir(calls, dir, rev, off, lim);
    if listed.Failure? {
      return [], Some(listed.error);
    }
    var names := listed.value;
    a := seq(|names|, _ => FileInfo("", 0, 0, false, false));
    err := None;
    var i := 0;
    while i < |names|
      invariant 0 <= i <= |names| && |a| == |names|
      invariant forall j :: 0 <= j < i ==> a[j] == InfoOf(calls, rev, dir, names[j])
      invariant i == 0 ==> err == None
      invariant i > 0 ==>
        var last := Statinfo(calls, rev, ChildPath(dir, names[i - 1]));
        (err.Some? <==> last.Failure?) && (last.Failure? ==> err == Some(last.error))
    {
      var info := Statinfo(calls, rev, ChildPath(dir, names[i]));
      if info.Failure? {
        err := Some(info.error);
        a := a[i := NameOnly(names[i])];
      } else {
        err := None;
        a := a[i := info.value];
      }
      i := i + 1;
    }
  }
}

=== FILE: frame.dfy ===
/** Length-prefixed framing of the connection's byte stream (`read`/`write`
    in conn.go): a 4-byte big-endian int32 length followed by that many bytes
    of an encoded message. The stream is a finite byte sequence whose end is
    the peer closing the connection. */
module Frame {
  import opened Wrappers
  import opened Protocol

  /** `v` as four big-endian bytes of two's complement (binary.BigEndian):
      the low 32 bits, most significant byte first. */
  function Int32BE(v: int): (b: seq<byte>)
    requires InInt32(v)
    ensures |b| == 4
  {
    var u := v % Two32;
    var q1 := u / 0x100;
    var q2 := q1 / 0x100;
    var q3 := q2 / 0x100;
    [(q3 % 0x100) as byte, (q2 % 0x100) as byte, (q1 % 0x100) as byte, (u % 0x100) as byte]
  }

  /** Four big-endian bytes read back as an int32. */
  function ReadInt32BE(b: seq<byte>): (v: int)
    requires |b| == 4
    ensures InInt32(v)
  {
    var u := ((b[0] as int * 0x100 + b[1] as int) * 0x100 + b[2] as int) * 0x100 + b[3] as int;
    if u < Two31 then u else u - Two32
  }

  lemma Int32BERoundTrip(v: int)
    requires InInt32(v)
    ensures ReadInt32BE(Int32BE(v)) == v
  {
    var u := v % Two32;
    Base256Digits(u);
    if v >= 0 {
      Split32(0, v);
    } else {
      Split32(-1, v + Two32);
    }
  }

  /** The four base-256 digits `Int32BE` takes of a number below 2^32 spell
      it out again. */
  lemma Base256Digits(u: int)
    requires 0 <= u < Two32
    ensures
      var q1 := u / 0x100;
      var q2 := q1 / 0x100;
      var q3 := q2 / 0x100;
      ((q3 % 0x100 * 0x100 + q2 % 0x100) * 0x100 + q1 % 0x100) * 0x100 + u % 0x100 == u
  {
    var q1 := u / 0x100;
    var q2 := q1 / 0x100;
    var q3 := q2 / 0x100;
    assert q1 < 0x100_0000;
    assert q2 < 0x1_0000;
    assert q3 < 0x100;
    assert q3 % 0x100 == q3;
  }

  /** Euclidean division by 256 of a number written with a last base-256 digit. */
  lemma Split8(q: int, r: int)
    requires 0 <= r < 0x100
    ensures (q * 0x100 + r) / 0x100 == q && (q * 0x100 + r) % 0x100 == r
  {
  }

  /** Every four bytes are the encoding of the int32 they read as. */
  lemma Int32BEOfRead(b: seq<byte>)
    requires |b| == 4
    ensures Int32BE(ReadInt32BE(b)) == b
  {
    var x0, x1, x2, x3 := b[0] as int, b[1] as int, b[2] as int, b[3] as int;
    var u := ((x0 * 0x100 + x1) * 0x100 + x2) * 0x100 + x3;
    assert ReadInt32BE(b) % Two32 == u by {
      if u >= Two31 {
        Split32(-1, u);
      } else {
        Split32(0, u);
      }
    }
    Split8((x0 * 0x100 + x1) * 0x100 + x2, x3);
    Split8(x0 * 0x100 + x1, x2);
    Split8(x0, x1);
    Split8(0, x0);
  }

  /** What `write` hands to the stream for one payload. The length prefix is
      `int32(len(buf))`, so a payload of 2^31 bytes or more gets a truncated
      prefix. */
  function Write(buf: seq<byte>): (w: seq<byte>)
    ensures |w| == 4 + |buf| && w[4..] == buf
    ensures ReadInt32BE(w[..4]) == Int32(|buf|)
  {
    Int32BERoundTrip(Int32(|buf|));
    Int32BE(Int32(|buf|)) + buf
  }

  /** Outcome of one `read`: a frame and the unread rest of the stream, an
      error, or the run-time panic of `make([]byte, size)` for a negative size. */
  datatype ReadResult = Frame(payload: seq<byte>, rest: seq<byte>) | Failed(err: Err) | Panic

  function Read(stream: seq<byte>): (r: ReadResult)
    // header: binary.Read reports EOF when nothing is left, UnexpectedEOF on a partial header
    ensures |stream| == 0 ==> r == Failed(Eof)
    ensures 0 < |stream| < 4 ==> r == Failed(UnexpectedEof)
    // body: a negative size panics; io.ReadFull reports EOF when no byte of it
    // arrived, UnexpectedEOF when only some did
    ensures |stream| >= 4 ==>
      var size := ReadInt32BE(stream[..4]);
      && (r.Panic? <==> size < 0)
      && (r == Failed(Eof) <==> size > 0 && |stream| == 4)
      && (r == Failed(UnexpectedEof) <==> 4 < |stream| < 4 + size)
      && (r.Frame? <==> 0 <= size <= |stream| - 4)
    // whatever is read as a frame is exactly what `write` produces for it
    ensures r.Frame? ==> |r.payload| < Two31 && stream == Write(r.payload) + r.rest
  {
    if |stream| == 0 then Failed(Eof)
    else if |stream| < 4 then Failed(UnexpectedEof)
    else
      var size := ReadInt32BE(stream[..4]);
      if size < 0 then Panic
      else if |stream| == 4 && size > 0 then Failed(Eof)
      else if |stream| - 4 < size then Failed(UnexpectedEof)
      else
        var payload := stream[4..4 + size];
        Int32BEOfRead(stream[..4]);
        assert Write(payload) == stream[..4] + payload;
        assert stream == stream[..4] + payload + stream[4 + size..];
        Frame(payload, stream[4 + size..])
  }

  /** Frame round trip: reading what `write` produced for a payload that fits
      an int32 length gives back the payload and leaves the rest untouched. */
  lemma ReadWrite(buf: seq<byte>, rest: seq<byte>)
    requires |buf| < Two31
    ensures Read(Write(buf) + rest) == Frame(buf, rest)
  {
    var s := Write(buf) + rest;
    assert s[..4] == Write(buf)[..4];
    assert s[4..4 + |buf|] == buf;
    assert s[4 + |buf|..] == rest;
  }

  /** The bytes of several frames written one after another. */
  function WriteAll(frames: seq<seq<byte>>): (w: seq<byte>)
    ensures |frames| == 0 <==> |w| == 0
  {
    if |frames| == 0 then [] else Write(frames[0]) + WriteAll(frames[1..])
  }

  /** How the reader loop ended: with the error it reported to the
      multiplexer, or by panicking. */
  datatype ReaderEnd = Reported(err: Err) | Crashed

  /** The reader loop (`readAll`): the frames it delivers, in order, and how it
      stopped. */
  function ReadAll(stream: seq<byte>): (r: (seq<seq<byte>>, ReaderEnd))
    ensures |WriteAll(r.0)| <= |stream| && stream[..|WriteAll(r.0)|] == WriteAll(r.0)
    // the loop stops at the first read that does not give a frame: a failed
    // read is reported with its error, a panicking one ends the process
    ensures |WriteAll(r.0)| <= |stream| ==>
      var left := Read(stream[|WriteAll(r.0)|..]);
      || (left.Failed? && r.1 == Reported(left.err))
      || (left.Panic? && r.1 == Crashed)
    decreases |stream|
  {
    match Read(stream)
    case Frame(payload, rest) =>
      var (more, end) := ReadAll(rest);
      assert stream == Write(payload) + rest;
      assert ([payload] + more)[1..] == more;
      assert WriteAll([payload] + more) == Write(payload) + WriteAll(more);
      assert stream[|WriteAll([payload] + more)|..] == rest[|WriteAll(more)|..];
      ([payload] + more, end)
    case Failed(e) => ([], Reported(e))
    case Panic => ([], Crashed)
  }

  /** Stream round trip: the reader loop delivers exactly the frames the writer
      wrote, in order, and then reports the end of the stream. */
  lemma {:induction false} ReadAllWriteAll(frames: seq<seq<byte>>)
    requires forall i :: 0 <= i < |frames| ==> |frames[i]| < Two31
    ensures ReadAll(WriteAll(frames)) == (frames, Reported(Eof))
  {
    if |frames| > 0 {
      ReadWrite(frames[0], WriteAll(frames[1..]));
      ReadAllWriteAll(frames[1..]);
      assert [frames[0]] + frames[1..] == frames;
    }
  }
}

=== FILE: mux.dfy ===
/** The connection multiplexer (`Conn.mux` and `Conn.Close` in conn.go) as a
    single-threaded state machine. The goroutine handles one event at a time,
    so each arm of its `select` is a pure step from one connection state to the
    next, producing the bytes written to the stream and the transactions it
    completed. Channels are not modelled: an event is the value one arm
    receives. */
module Mux {
  import opened Wrappers
  import opened Protocol
  import Frame

  /** One caller's transaction; `id` identifies the caller waiting on it. */
  datatype Txn = Txn(id: nat, req: Request)

  /** The tag table. A marshal failure leaves a key whose slot is nil, so a
      slot is an `Option`. */
  type Table = map<int, Option<Txn>>

  /** A tag held by a live transaction. */
  predicate Live(tbl: Table, k: int) {
    k in tbl && tbl[k].Some?
  }

  /** The multiplexer's state: its tag table and next-tag counter, the
      connection's recorded error, whether the multiplexer has exited, and
      whether a stop request sits in the capacity-1 `stop` channel. */
  datatype Conn = Conn(txns: Table, next: int, err: Option<Err>, stopped: bool, stopPending: bool)

  /** A freshly dialed connection. */
  const Initial: Conn := Conn(map[], 0, None, false, false)

  /** Completing a transaction: its response is attached, or its error set,
      and its `done` channel fires. */
  datatype Completion = Replied(id: nat, resp: Response) | Failed(id: nat, err: Err)

  /** What one arm of the `select` receives. For a submission, `encoded` is the
      message codec's answer for the tagged request and `writeErr` what writing
      the frame returned; for a delivery, `decoded` is the codec's answer for
      the frame. */
  datatype Input =
    | Submit(t: Txn, encoded: Result<seq<byte>, Err>, writeErr: Option<Err>)
    | Deliver(decoded: Result<Response, Err>)
    | ReaderError(err: Err)
    | Stop

  /** What a step did: the tag it assigned, the frame it wrote to the stream
      (or tried to write, when the write failed: the stream may then have
      taken only part of it), the transactions it completed, and whether it
      panicked. */
  datatype Output = Output(tag: Option<int>, wire: seq<byte>, done: set<Completion>, panicked: bool)

  const Quiet: Output := Output(None, [], {}, false)

  datatype Next = Next(conn: Conn, out: Output)

  // ---------------------------------------------------------------- Close

  /** `Close`: a non-blocking send on the capacity-1 `stop` channel; when the
      channel is already full the request is dropped. */
  function Close(c: Conn): (r: Conn)
    ensures r.stopPending
    ensures r.txns == c.txns && r.next == c.next && r.err == c.err && r.stopped == c.stopped
  {
    c.(stopPending := true)
  }

  // ---------------------------------------------------------------- tags

  function LiveFrom(tbl: Table, n: int): set<int> {
    set k | k in tbl && n <= k && tbl[k].Some?
  }

  /** The tag search: starting at the counter, step upward past every tag a
      live transaction holds. A key with a nil slot counts as free. */
  function NextFree(tbl: Table, n: int): (r: int)
    ensures n <= r && !Live(tbl, r)
    ensures forall k :: n <= k < r ==> Live(tbl, k)
    decreases |LiveFrom(tbl, n)|
  {
    if !Live(tbl, n) then n
    else
      assert LiveFrom(tbl, n + 1) == LiveFrom(tbl, n) - {n};
      NextFree(tbl, n + 1)
  }

  // ---------------------------------------------------------------- arms

  /** The `error:` label: record the error, fail every transaction in the
      table with it, close the stream, exit. Iterating the table dereferences
      every slot, so a nil slot left by a marshal failure makes the
      multiplexer panic; a crashed process completes nothing. */
  function Shutdown(c: Conn, e: Err): (r: Next)
    ensures r.conn.stopped && r.conn.err == Some(e) && r.conn.txns == map[]
    ensures r.conn.next == c.next
    ensures r.out.tag == None && r.out.wire == []
    ensures r.out.panicked <==> exists k :: k in c.txns && c.txns[k].None?
    ensures r.out.panicked ==> r.out.done == {}
    ensures !r.out.panicked ==>
      && (forall k :: Live(c.txns, k) ==> Failed(c.txns[k].value.id, e) in r.out.done)
      && (forall x :: x in r.out.done ==>
            x.Failed? && x.err == e && exists k :: Live(c.txns, k) && c.txns[k].value.id == x.id)
  {
    var panics := exists k :: k in c.txns && c.txns[k].None?;
    var done := set k | k in c.txns && c.txns[k].Some? :: Failed(c.txns[k].value.id, e);
    Next(Conn(map[], c.next, Some(e), true, c.stopPending),
         Output(None, [], if panics then {} else done, panics))
  }

  /** The submission arm: find an unused tag, store the transaction under it,
      stamp the tag on the request, marshal it and write the frame. */
  function HandleSubmit(c: Conn, t: Txn, encoded: Result<seq<byte>, Err>, writeErr: Option<Err>): (r: Next)
    requires !c.stopped
    // the assigned tag is held by no live transaction, and the counter only moves up to it
    ensures r.out.tag.Some? && c.next <= r.out.tag.value == r.conn.next
    ensures !Live(c.txns, r.out.tag.value)
    // it is the first such value: every value skipped is held
    ensures forall k :: c.next <= k < r.out.tag.value ==> Live(c.txns, k)
    // marshal failure: nil slot, the caller gets the marshal error, nothing written, nothing else changes
    ensures encoded.Failure? ==>
      var tag := r.out.tag.value;
      && r.conn.txns == c.txns[tag := None]
      && r.out.done == {Failed(t.id, encoded.error)}
      && r.out.wire == [] && !r.out.panicked
      && r.conn.err == c.err && !r.conn.stopped && r.conn.stopPending == c.stopPending
    // success: the transaction is live under its tag with the tag stamped on its request
    ensures encoded.Success? && writeErr.None? ==>
      var tag := r.out.tag.value;
      && r.conn.txns == c.txns[tag := Some(Txn(t.id, t.req.(tag := Some(tag))))]
      && r.out.wire == Frame.Write(encoded.value)
      && r.out.done == {} && !r.out.panicked
      && r.conn.err == c.err && !r.conn.stopped && r.conn.stopPending == c.stopPending
    // a failed write brings the connection down with the write error
    ensures encoded.Success? && writeErr.Some? ==>
      && r.conn.stopped && r.conn.err == writeErr
      && r.out.wire == Frame.Write(encoded.value)
  {
    var tag := NextFree(c.txns, c.next);
    var stamped := Txn(t.id, t.req.(tag := Some(tag)));
    var admitted := c.(txns := c.txns[tag := Some(stamped)], next := tag);
    match encoded
    case Failure(e) =>
      Next(admitted.(txns := c.txns[tag := None]), Output(Some(tag), [], {Failed(t.id, e)}, false))
    case Success(buf) =>
      var wire := Frame.Write(buf);
      if writeErr.Some? then
        var down := Shutdown(admitted, writeErr.value);
        Next(down.conn, down.out.(tag := Some(tag), wire := wire))
      else
        Next(admitted, Output(Some(tag), wire, {}, false))
  }

  /** The delivery arm: decode a frame and hand the response to the
      transaction holding its tag. Undecodable frames, frames without a tag
      and frames whose tag no live transaction holds are logged and dropped. */
  function HandleDeliver(c: Conn, decoded: Result<Response, Err>): (r: Next)
    requires !c.stopped
    ensures decoded.Failure? ==> r == Next(c, Quiet)
    ensures decoded.Success? && decoded.value.tag.None? ==> r == Next(c, Quiet)
    ensures decoded.Success? && decoded.value.tag.Some? && !Live(c.txns, decoded.value.tag.value) ==>
      r == Next(c, Quiet)
    ensures decoded.Success? && decoded.value.tag.Some? && Live(c.txns, decoded.value.tag.value) ==>
      var tag := decoded.value.tag.value;
      && r.conn == c.(txns := c.txns - {tag})
      && r.out == Quiet.(done := {Replied(c.txns[tag].value.id, decoded.value)})
  {
    match decoded
    case Failure(_) => Next(c, Quiet)
    case Success(resp) =>
      match resp.tag
      case None => Next(c, Quiet)
      case Some(tag) =>
        if !Live(c.txns, tag) then Next(c, Quiet)
        else Next(c.(txns := c.txns - {tag}), Quiet.(done := {Replied(c.txns[tag].value.id, resp)}))
  }

  /** One event handled by the multiplexer. Once it has exited, nothing is
      received any more; a stop arm is only ready while a stop is pending. */
  function Step(c: Conn, ev: Input): (r: Next)
    ensures c.stopped ==> r == Next(c, Quiet)
    ensures c.next <= r.conn.next
    ensures !c.stopped && ev.ReaderError? ==> r.conn.stopped && r.conn.err == Some(ev.err)
    ensures !c.stopped && ev.Stop? && c.stopPending ==> r.conn.stopped && r.conn.err == Some(Closed) && !r.conn.stopPending
    ensures !c.stopped && ev.Stop? && !c.stopPending ==> r == Next(c, Quiet)
  {
    if c.stopped then Next(c, Quiet)
    else
      match ev
      case Submit(t, encoded, writeErr) => HandleSubmit(c, t, encoded, writeErr)
      case Deliver(decoded) => HandleDeliver(c, decoded)
      case ReaderError(e) => Shutdown(c, e)
      case Stop => if c.stopPending then Shutdown(c.(stopPending := false), Closed) else Next(c, Quiet)
  }

  // ---------------------------------------------------------------- invariant

  /** Ids of the callers still waiting in the table. */
  function LiveIds(c: Conn): set<nat> {
    set k | k in c.txns && c.txns[k].Some? :: c.txns[k].value.id
  }

  function DoneIds(done: set<Completion>): set<nat> {
    set x | x in done :: x.id
  }

  /** No caller is completed twice within one step. */
  predicate OnePerId(done: set<Completion>) {
    forall x, y :: x in done && y in done && x.id == y.id ==> x == y
  }

  /** What holds of every state the multiplexer reaches: keys never lie above
      the counter, a live transaction's request carries its own key as tag, no
      caller waits under two tags, an error is recorded exactly when the
      multiplexer has exited, and an exited multiplexer holds nothing. */
  ghost predicate Inv(c: Conn) {
    && (forall k :: k in c.txns ==> k <= c.next)
    && (forall k :: Live(c.txns, k) ==> c.txns[k].value.req.tag == Some(k))
    && (forall k1, k2 :: Live(c.txns, k1) && Live(c.txns, k2) && c.txns[k1].value.id == c.txns[k2].value.id ==> k1 == k2)
    && (c.stopped <==> c.err.Some?)
    && (c.stopped ==> c.txns == map[])
  }

  /** The caller a step admits to the table, if any. */
  function Admitted(c: Conn, ev: Input): set<nat> {
    if !c.stopped && ev.Submit? then {ev.t.id} else {}
  }

  /** A submitting caller is not already waiting. */
  predicate FreshFor(c: Conn, ev: Input) {
    ev.Submit? ==> ev.t.id !in LiveIds(c)
  }

  lemma InitialInv()
    ensures Inv(Initial)
  {
  }

  lemma StepKeepsInv(c: Conn, ev: Input)
    requires Inv(c) && FreshFor(c, ev)
    ensures Inv(Step(c, ev).conn)
  {
    if !c.stopped && ev.Submit? {
      var r := Step(c, ev);
      var tag := r.out.tag.value;
      if ev.encoded.Success? && ev.writeErr.None? {
        var t := ev.t;
        forall k1, k2 | Live(r.conn.txns, k1) && Live(r.conn.txns, k2) && r.conn.txns[k1].value.id == r.conn.txns[k2].value.id
          ensures k1 == k2
        {
          if k1 != tag && k2 != tag {
            assert Live(c.txns, k1) && Live(c.txns, k2);
          }
        }
      }
    }
  }

  /** Conservation for one step: the callers waiting before, plus the one
      admitted, are exactly the callers waiting after plus those completed;
      a completed caller no longer waits, and none is completed twice. */
  lemma StepAccounts(c: Conn, ev: Input)
    requires Inv(c) && FreshFor(c, ev)
    ensures var r := Step(c, ev);
      !r.out.panicked ==>
        && LiveIds(r.conn) + DoneIds(r.out.done) == LiveIds(c) + Admitted(c, ev)
        && LiveIds(r.conn) !! DoneIds(r.out.done)
        && OnePerId(r.out.done)
  {
    if c.stopped {
    } else if ev.Submit? {
      SubmitAccounts(c, ev.t, ev.encoded, ev.writeErr);
    } else if ev.Deliver? {
      DeliverAccounts(c, ev.decoded);
    } else if ev.ReaderError? {
      ShutdownAccounts(c, ev.err);
    } else if c.stopPending {
      ShutdownAccounts(c.(stopPending := false), Closed);
    }
  }

  lemma SubmitAccounts(c: Conn, t: Txn, encoded: Result<seq<byte>, Err>, writeErr: Option<Err>)
    requires Inv(c) && !c.stopped && t.id !in LiveIds(c)
    ensures var r := HandleSubmit(c, t, encoded, writeErr);
      !r.out.panicked ==>
        && LiveIds(r.conn) + DoneIds(r.out.done) == LiveIds(c) + {t.id}
        && LiveIds(r.conn) !! DoneIds(r.out.done)
        && OnePerId(r.out.done)
  {
    var r := HandleSubmit(c, t, encoded, writeErr);
    var tag := r.out.tag.value;
    var a := c.(txns := c.txns[tag := Some(Txn(t.id, t.req.(tag := Some(tag))))], next := tag);
    assert LiveIds(a) == LiveIds(c) + {t.id} by {
      forall k | Live(c.txns, k) ensures Live(a.txns, k) && a.txns[k] == c.txns[k] {}
      assert Live(a.txns, tag) && a.txns[tag].value.id == t.id;
    }
    if encoded.Failure? {
      assert LiveIds(r.conn) == LiveIds(c) by {
        forall k | Live(c.txns, k) ensures Live(r.conn.txns, k) && r.conn.txns[k] == c.txns[k] {}
      }
    } else if writeErr.Some? && !r.out.panicked {
      assert r.conn == Shutdown(a, writeErr.value).conn;
      assert r.out.done == Shutdown(a, writeErr.value).out.done;
      ShutdownAccounts(a, writeErr.value);
    }
  }

  lemma DeliverAccounts(c: Conn, decoded: Result<Response, Err>)
    requires Inv(c) && !c.stopped
    ensures var r := HandleDeliver(c, decoded);
      && LiveIds(r.conn) + DoneIds(r.out.done) == LiveIds(c)
      && LiveIds(r.conn) !! DoneIds(r.out.done)
      && OnePerId(r.out.done)
  {
    var r := HandleDeliver(c, decoded);
    if r.out.done != {} {
      var tag := decoded.value.tag.value;
      var id := c.txns[tag].value.id;
      assert LiveIds(r.conn) == LiveIds(c) - {id} by {
        forall k | Live(c.txns, k) && k != tag ensures Live(r.conn.txns, k) && c.txns[k].value.id != id {}
      }
    }
  }

  lemma ShutdownAccounts(c: Conn, e: Err)
    ensures !Shutdown(c, e).out.panicked ==> DoneIds(Shutdown(c, e).out.done) == LiveIds(c)
    ensures OnePerId(Shutdown(c, e).out.done)
  {
    var r := Shutdown(c, e);
    if !r.out.panicked {
      forall k | Live(c.txns, k) ensures c.txns[k].value.id in DoneIds(r.out.done) {
        assert Failed(c.txns[k].value.id, e) in r.out.done;
      }
    }
  }

  // ---------------------------------------------------------------- runs

  /** The multiplexer's life over a sequence of inputs; a panic ends the
      process, so nothing after it is handled. */
  function Run(c: Conn, evs: seq<Input>): (r: (Conn, seq<Output>))
    ensures |r.1| <= |evs|
    ensures forall i :: 0 <= i < |r.1| - 1 ==> !r.1[i].panicked
    // a run stops early only because its last step panicked
    ensures NoPanic(r.1) ==> |r.1| == |evs|
    ensures |r.1| < |evs| ==> |r.1| > 0 && r.1[|r.1| - 1].panicked
    ensures c.stopped ==> r.0 == c
    decreases |evs|
  {
    if |evs| == 0 then (c, [])
    else
      var n := Step(c, evs[0]);
      if n.out.panicked then
        assert [n.out][0] == n.out;
        (n.conn, [n.out])
      else
        var rest := Run(n.conn, evs[1..]);
        assert NoPanic([n.out] + rest.1) ==> NoPanic(rest.1) by {
          forall i | 0 <= i < |rest.1| ensures rest.1[i] == ([n.out] + rest.1)[i + 1] { }
        }
        (rest.0, [n.out] + rest.1)
  }

  /** The callers a run admits to the table. */
  ghost function AdmittedRun(c: Conn, evs: seq<Input>): set<nat>
    decreases |evs|
  {
    if |evs| == 0 then {}
    else
      var n := Step(c, evs[0]);
      if n.out.panicked then Admitted(c, evs[0])
      else Admitted(c, evs[0]) + AdmittedRun(n.conn, evs[1..])
  }

  ghost function AllDone(outs: seq<Output>): set<nat> {
    if |outs| == 0 then {} else DoneIds(outs[0].done) + AllDone(outs[1..])
  }

  predicate NoPanic(outs: seq<Output>) {
    forall i :: 0 <= i < |outs| ==> !outs[i].panicked
  }

  /** Every submission in the run comes from a caller that is not already
      waiting and submits only once. */
  ghost predicate FreshRun(c: Conn, evs: seq<Input>) {
    && (forall i :: 0 <= i < |evs| && evs[i].Submit? ==> evs[i].t.id !in LiveIds(c))
    && (forall i, j :: 0 <= i < j < |evs| && evs[i].Submit? && evs[j].Submit? ==> evs[i].t.id != evs[j].t.id)
  }

  lemma {:induction false} AdmittedAreSubmitted(c: Conn, evs: seq<Input>)
    ensures forall id :: id in AdmittedRun(c, evs) ==>
      exists i :: 0 <= i < |evs| && evs[i].Submit? && evs[i].t.id == id
    decreases |evs|
  {
    if |evs| > 0 {
      var n := Step(c, evs[0]);
      if !n.out.panicked {
        AdmittedAreSubmitted(n.conn, evs[1..]);
        forall id | id in AdmittedRun(n.conn, evs[1..])
          ensures exists i :: 0 <= i < |evs| && evs[i].Submit? && evs[i].t.id == id
        {
          var i :| 0 <= i < |evs[1..]| && evs[1..][i].Submit? && evs[1..][i].t.id == id;
          assert evs[i + 1] == evs[1..][i];
        }
      }
    }
  }

  lemma AllDoneCovers(outs: seq<Output>, j: int)
    requires 0 <= j < |outs|
    ensures DoneIds(outs[j].done) <= AllDone(outs)
  {
    if j > 0 {
      AllDoneCovers(outs[1..], j - 1);
    }
  }

  /** A run's freshness carries over to the rest of the run after its first
      step. */
  lemma FreshRunTail(c: Conn, evs: seq<Input>)
    requires Inv(c) && FreshRun(c, evs) && |evs| > 0
    requires !Step(c, evs[0]).out.panicked
    ensures FreshRun(Step(c, evs[0]).conn, evs[1..])
  {
    var ev, rest := evs[0], evs[1..];
    var n := Step(c, ev);
    StepAccounts(c, ev);
    forall i | 0 <= i < |rest| && rest[i].Submit? ensures rest[i].t.id !in LiveIds(n.conn) {
      assert rest[i] == evs[i + 1];
      assert ev.Submit? ==> ev.t.id != evs[i + 1].t.id;
    }
    forall i, j | 0 <= i < j < |rest| && rest[i].Submit? && rest[j].Submit?
      ensures rest[i].t.id != rest[j].t.id
    {
      assert rest[i] == evs[i + 1] && rest[j] == evs[j + 1];
    }
  }

  /** The callers completed by a run's first step are not admitted again later
      in the run. */
  lemma FirstDoneNotReadmitted(c: Conn, evs: seq<Input>)
    requires Inv(c) && FreshRun(c, evs) && |evs| > 0
    requires !Step(c, evs[0]).out.panicked
    ensures DoneIds(Step(c, evs[0]).out.done) !! AdmittedRun(Step(c, evs[0]).conn, evs[1..])
  {
    var ev, rest := evs[0], evs[1..];
    var n := Step(c, ev);
    StepAccounts(c, ev);
    AdmittedAreSubmitted(n.conn, rest);
    forall id | id in AdmittedRun(n.conn, rest) ensures id !in LiveIds(c) + Admitted(c, ev) {
      var i :| 0 <= i < |rest| && rest[i].Submit? && rest[i].t.id == id;
      assert rest[i] == evs[i + 1];
    }
  }

  /** Prepending a step whose completions are disjoint from everything later
      keeps the steps' completions pairwise disjoint and one per caller. */
  lemma ConsOutputs(o: Output, outs: seq<Output>)
    requires DoneIds(o.done) !! AllDone(outs) && OnePerId(o.done)
    requires forall i, j :: 0 <= i < j < |outs| ==> DoneIds(outs[i].done) !! DoneIds(outs[j].done)
    requires forall i :: 0 <= i < |outs| ==> OnePerId(outs[i].done)
    ensures var all := [o] + outs;
      && (forall i, j :: 0 <= i < j < |all| ==> DoneIds(all[i].done) !! DoneIds(all[j].done))
      && (forall i :: 0 <= i < |all| ==> OnePerId(all[i].done))
  {
    var all := [o] + outs;
    forall i, j | 0 <= i < j < |all| ensures DoneIds(all[i].done) !! DoneIds(all[j].done) {
      if i == 0 {
        AllDoneCovers(outs, j - 1);
        assert all[j] == outs[j - 1];
      } else {
        assert all[i] == outs[i - 1] && all[j] == outs[j - 1];
      }
    }
    forall i | 0 <= i < |all| ensures OnePerId(all[i].done) {
      if i > 0 {
        assert all[i] == outs[i - 1];
      }
    }
  }

  /** Every transaction is completed exactly once. Over any run without a
      panic, from a reachable state, the callers waiting at the start plus
      those admitted are exactly the callers completed plus those still
      waiting; a completed caller no longer waits; no caller is completed in
      two steps; and no step completes a caller twice. */
  lemma {:induction false} RunCompletesEachOnce(c: Conn, evs: seq<Input>)
    requires Inv(c) && FreshRun(c, evs)
    ensures var (last, outs) := Run(c, evs);
      NoPanic(outs) ==>
        && Inv(last)
        && AllDone(outs) + LiveIds(last) == LiveIds(c) + AdmittedRun(c, evs)
        && AllDone(outs) !! LiveIds(last)
        && (forall i, j :: 0 <= i < j < |outs| ==> DoneIds(outs[i].done) !! DoneIds(outs[j].done))
        && (forall i :: 0 <= i < |outs| ==> OnePerId(outs[i].done))
    decreases |evs|
  {
    if |evs| > 0 {
      var ev := evs[0];
      var n := Step(c, ev);
      StepKeepsInv(c, ev);
      StepAccounts(c, ev);
      if !n.out.panicked {
        var rest := evs[1..];
        FreshRunTail(c, evs);
        RunCompletesEachOnce(n.conn, rest);
        var (last, outs') := Run(n.conn, rest);
        var outs := [n.out] + outs';
        assert Run(c, evs) == (last, outs);
        if NoPanic(outs) {
          assert NoPanic(outs') by {
            forall i | 0 <= i < |outs'| ensures !outs'[i].panicked {
              assert outs'[i] == outs[i + 1];
            }
          }
          assert outs[1..] == outs';
          FirstDoneNotReadmitted(c, evs);
          ConsOutputs(n.out, outs');
        }
      }
    }
  }

  /** Once the multiplexer has exited, every caller that was waiting at the
      start or was admitted during the run has been completed, exactly once. */
  lemma StoppedRunCompletesEveryone(c: Conn, evs: seq<Input>)
    requires Inv(c) && FreshRun(c, evs)
    ensures var (last, outs) := Run(c, evs);
      NoPanic(outs) && last.stopped ==> AllDone(outs) == LiveIds(c) + AdmittedRun(c, evs)
  {
    RunCompletesEachOnce(c, evs);
  }

  // ---------------------------------------------------------------- as written

  /** `Close` called `k` times in a row. */
  function CloseTimes(c: Conn, k: nat): (r: Conn)
    ensures r.txns == c.txns && r.next == c.next && r.stopped == c.stopped && r.err == c.err
    ensures k > 0 ==> r.stopPending
    ensures k == 0 ==> r == c
  {
    if k == 0 then c else Close(CloseTimes(c, k - 1))
  }

  lemma {:induction false} CloseIdempotent(c: Conn, k: nat)
    ensures CloseTimes(c, k + 1) == Close(c)
  {
    if k > 0 {
      CloseIdempotent(c, k - 1);
    }
  }

  /** However often `Close` is called, at most one stop is pending: the first
      stop shuts the connection down with `ErrClosed`, and later stops and
      closes change nothing. */
  lemma RepeatedCloseShutsDownOnce(c: Conn, k: nat, m: nat, later: Input)
    requires !c.stopped
    ensures var r := Step(CloseTimes(c, k + 1), Stop);
      && r.conn.stopped && r.conn.err == Some(Closed)
      // the shutdown loop panics exactly when a nil slot is in the table
      && (r.out.panicked <==> exists k :: k in c.txns && c.txns[k].None?)
      && Step(CloseTimes(r.conn, m), later) == Next(CloseTimes(r.conn, m), Quiet)
  {
    CloseIdempotent(c, k);
  }

  /** A marshal failure leaves a nil slot under its tag; the next submission
      takes that same tag. */
  lemma NilSlotIsReused(c: Conn, t: Txn, e: Err, u: Txn, encoded: Result<seq<byte>, Err>, writeErr: Option<Err>)
    requires !c.stopped
    ensures var r := HandleSubmit(c, t, Failure(e), None);
      var k := r.out.tag.value;
      && k in r.conn.txns && r.conn.txns[k] == None
      && HandleSubmit(r.conn, u, encoded, writeErr).out.tag == Some(k)
  {
  }

  /** If the stop or a reader error arrives while such a nil slot is still in
      the table, the shutdown loop dereferences it and the multiplexer
      panics instead of failing the waiting transactions. */
  lemma NilSlotPanicsShutdown(c: Conn, t: Txn, e: Err, last: Input)
    requires !c.stopped && (last.Stop? || last.ReaderError?)
    ensures var r := HandleSubmit(c, t, Failure(e), None);
      Step(Close(r.conn), last).out.panicked
  {
    var r := HandleSubmit(c, t, Failure(e), None);
    var k := r.out.tag.value;
    assert k in Close(r.conn).txns && Close(r.conn).txns[k].None?;
  }

  /** Tags are not allocated lowest-free: the counter keeps its place, so a
      tag freed below it is skipped. Three submissions with a reply to the
      first in between get tags 0, 1 and 2 although tag 0 is free again. */
  lemma TagsAreNotLowestFree(req: Request, buf: seq<byte>, resp: Response)
    requires resp.tag == Some(0)
    ensures
      var r1 := Step(Initial, Submit(Txn(1, req), Success(buf), None));
      var r2 := Step(r1.conn, Submit(Txn(2, req), Success(buf), None));
      var r3 := Step(r2.conn, Deliver(Success(resp)));
      var r4 := Step(r3.conn, Submit(Txn(3, req), Success(buf), None));
      && r1.out.tag == Some(0) && r2.out.tag == Some(1)
      && r3.out.done == {Replied(1, resp)} && !Live(r3.conn.txns, 0)
      && r4.out.tag == Some(2)
  {
    var r1 := Step(Initial, Submit(Txn(1, req), Success(buf), None));
    assert NextFree(map[], 0) == 0;
    assert r1.conn.txns.Keys == {0} && Live(r1.conn.txns, 0);
    assert NextFree(r1.conn.txns, 0) == NextFree(r1.conn.txns, 1) == 1;
    var r2 := Step(r1.conn, Submit(Txn(2, req), Success(buf), None));
    assert r2.conn.txns.Keys == {0, 1} && Live(r2.conn.txns, 1);
    var r3 := Step(r2.conn, Deliver(Success(resp)));
    assert r3.conn.txns.Keys == {1} && r3.conn.next == 1;
    assert NextFree(r3.conn.txns, 1) == NextFree(r3.conn.txns, 2) == 2;
  }
}

=== FILE: protocol.dfy ===
/** The records and error values the connection code exchanges with the rest of
    the client library. The request/response records are produced and consumed
    by an external message codec; only their fields matter here. The sentinels,
    `FileInfo`, `Event`, the error values and `basename` are defined in files
    that are not part of this model and are declared here with the meaning the
    connection code relies on. */
module Protocol {
  import opened Wrappers

  newtype byte = b: int | 0 <= b < 256

  const Two31: int := 0x8000_0000
  const Two32: int := 0x1_0000_0000

  predicate InInt32(v: int) {
    -Two31 <= v < Two31
  }

  /** Go's conversion `int32(n)`: keep the low 32 bits, read them as two's
      complement. */
  function Int32(n: int): (r: int)
    ensures InInt32(r)
    ensures (n - r) % Two32 == 0
    ensures InInt32(n) ==> r == n
  {
    var m := n % Two32;
    if m < Two31 then m else m - Two32
  }

  /** Two numbers convert to the same int32 exactly when they differ by a
      multiple of 2^32. */
  lemma Int32Same(a: int, b: int)
    ensures Int32(a) == Int32(b) <==> (a - b) % Two32 == 0
  {
    var qa, ra := a / Two32, a % Two32;
    var qb, rb := b / Two32, b % Two32;
    // a - b leaves the same remainder as ra - rb, which lies strictly between -2^32 and 2^32
    var d := if ra >= rb then ra - rb else ra - rb + Two32;
    assert 0 <= d < Two32;
    assert a - b == (qa - qb - (if ra >= rb then 0 else 1)) * Two32 + d;
    Split32(qa - qb - (if ra >= rb then 0 else 1), d);
    assert (a - b) % Two32 == d;
  }

  lemma Split32(q: int, r: int)
    requires 0 <= r < Two32
    ensures (q * Two32 + r) % Two32 == r
  {
  }

  /** Server-side error codes a response may carry. The client inspects only
      "no such entry" and "out of range"; every other code is opaque. */
  datatype Code = NoEntCode | RangeCode | OtherCode(n: int)

  datatype Err =
    | InvalidUri          // ErrInvalidUri
    | Closed              // ErrClosed: the connection was closed deliberately
    | NoEnt               // ErrNoEnt returned as a bare value (by Statinfo)
    | Server(code: Code)  // the structured error built from a response's error code
    | Eof                 // io.EOF: the stream ended before any byte of a read
    | UnexpectedEof       // io.ErrUnexpectedEOF: the stream ended inside a read
    | Foreign(id: nat)    // any other error raised outside the model (network, codec, query parser)

  /** The error is an `*Error`, built from a response's error code; every
      other error is a plain `error` value. */
  predicate IsStructured(e: Err) {
    e.Server?
  }

  /** The structured "out of range" error that ends a listing. */
  predicate IsRange(e: Err) {
    e.Server? && e.code == RangeCode
  }

  datatype Verb = GET | SET | DEL | REV | WAIT | NOP | WALK | GETDIR | STAT | ACCESS

  datatype Request = Request(
    verb: Verb,
    path: string,
    value: seq<byte>,
    rev: Option<int>,
    offset: Option<int>,
    tag: Option<int>)

  datatype Response = Response(
    tag: Option<int>,
    errCode: Option<Code>,
    rev: int,
    path: string,
    value: seq<byte>,
    len: int,
    flags: int)

  /** Reserved file revisions reported by STAT. Their definitions live outside
      this model; the values below are stand-ins and only their distinctness
      matters. */
  const Missing: int := -1
  const Dir: int := -2

  datatype FileInfo = FileInfo(name: string, len: int, rev: int, isSet: bool, isDir: bool)

  /** The zero `FileInfo` with only a name filled in. */
  function NameOnly(name: string): FileInfo {
    FileInfo(name, 0, 0, false, false)
  }

  datatype Event = Event(rev: int, path: string, body: seq<byte>, flag: int)

  /** The final segment of a slash-separated path: everything after the last
      '/', or the whole path when it has none. */
  function Basename(path: string): (r: string)
    ensures |r| <= |path| && r == path[|path| - |r|..]
    ensures '/' !in r
    ensures |r| < |path| ==> path[|path| - |r| - 1] == '/'
  {
    if |path| == 0 then ""
    else if path[|path| - 1] == '/' then ""
    else Basename(path[..|path| - 1]) + [path[|path| - 1]]
  }

  /** A name without '/' is its own final segment after any prefix ending in '/'. */
  lemma {:induction false} BasenameOfChild(prefix: string, name: string)
    requires |prefix| > 0 && prefix[|prefix| - 1] == '/'
    requires '/' !in name
    ensures Basename(prefix + name) == name
  {
    var p := prefix + name;
    var r := Basename(p);
    assert p[|prefix| - 1] == '/';
    assert p[|prefix|..] == name;
    assert r == p[|p| - |name|..] == name;
  }
}

=== FILE: resolver.dfy ===
/** Connection strings and cluster lookup (`dialUri` and `lookup` in conn.go):
    which address a `doozer:?` URI ends up dialled on, and which outcomes the
    resolution can have. The network, the query-string parser and the random
    choice are parameters; every request on an open connection is answered
    by what `call` returns for it. */
module Resolver {
  import opened Wrappers
  import opened Protocol
  import opened Client

  const UriPrefix: string := "doozer:?"

  predicate HasPrefix(s: string, prefix: string) {
    |prefix| <= |s| && s[..|prefix|] == prefix
  }

  /** A parsed query string: every key present maps to at least one value, as
      `url.ParseQuery` guarantees. */
  type Query = q: map<string, seq<string>> | forall k :: k in q ==> |q[k]| > 0
    witness map[]

  /** Everything dialling depends on outside the model. */
  datatype Net = Net(
    parse: string -> Result<Query, Err>,     // url.ParseQuery on the text after the prefix
    dial: string -> Option<Err>,             // the transport's dial of an address
    pick: (string, string) -> nat,           // rand.Int() at the dial for (uri, buri)
    calls: string -> Calls)                  // what `call` returns on a connection to an address

  // ---------------------------------------------------------------- bytes and text

  /** Go's `string(body)`: one character per byte. */
  function Text(b: seq<byte>): (s: string)
    ensures |s| == |b| && forall i :: 0 <= i < |b| ==> s[i] as int == b[i] as int
  {
    seq(|b|, i requires 0 <= i < |b| => (b[i] as int) as char)
  }

  /** Go's `[]byte(token)`, one byte per character (its low 8 bits). */
  function Bytes(s: string): (b: seq<byte>)
    ensures |b| == |s| && forall i :: 0 <= i < |s| ==> b[i] as int == (s[i] as int) % 256
  {
    seq(|s|, i requires 0 <= i < |s| => ((s[i] as int) % 256) as byte)
  }

  /** Text read from bytes converts back to the same bytes. */
  lemma BytesOfText(b: seq<byte>)
    ensures Bytes(Text(b)) == b
  {
    var t := Bytes(Text(b));
    forall i | 0 <= i < |b| ensures t[i] == b[i] {
      assert (Text(b)[i] as int) % 256 == b[i] as int;
    }
  }

  // ---------------------------------------------------------------- requests

  function RevRequest(): Request {
    Request(REV, "", [], None, None, None)
  }

  function GetRequest(path: string, rev: Option<int>): Request {
    Request(GET, path, [], rev, None, None)
  }

  /** The secret travels as the request's value, `[]byte(token)`. */
  function AccessRequest(token: string): Request {
    Request(ACCESS, "", Bytes(token), None, None, None)
  }

  // ---------------------------------------------------------------- lookup

  /** The directory listing the addresses of cluster `name`. */
  function NsDir(name: string): string {
    "/ctl/ns/" + name
  }

  /** The listing of the cluster's directory, at the revision the server
      reports, eventually ends (otherwise `lookup` lists forever). */
  ghost predicate LookupEnds(calls: Calls, name: string) {
    calls(RevRequest()).Success? ==>
      Ends(GetdirAnswers(calls, NsDir(name), calls(RevRequest()).value.rev), 0)
  }

  /** The bodies of `dir + "/" + name` for each name, read at revision `rev`;
      the first GET that fails aborts with its error. */
  function FetchAll(calls: Calls, dir: string, rev: int, names: seq<string>): (r: Result<seq<string>, Err>)
    ensures r.Success? ==> |r.value| == |names| && forall i :: 0 <= i < |names| ==>
      && calls(GetRequest(dir + "/" + names[i], Some(rev))).Success?
      && r.value[i] == Text(calls(GetRequest(dir + "/" + names[i], Some(rev))).value.value)
    ensures r.Failure? ==> exists i ::
      && 0 <= i < |names|
      && calls(GetRequest(dir + "/" + names[i], Some(rev))) == Failure(r.error)
      && forall j :: 0 <= j < i ==> calls(GetRequest(dir + "/" + names[j], Some(rev))).Success?
    decreases |names|
  {
    if |names| == 0 then Success([])
    else
      match calls(GetRequest(dir + "/" + names[0], Some(rev)))
      case Failure(e) => Failure(e)
      case Success(resp) =>
        match FetchAll(calls, dir, rev, names[1..])
        case Failure(e) =>
          assert forall j :: 1 <= j < |names| ==> names[1..][j - 1] == names[j];
          Failure(e)
        case Success(rest) =>
          assert forall j :: 1 <= j < |names| ==> names[1..][j - 1] == names[j];
          Success([Text(resp.value)] + rest)
  }

  /** The listing errors `lookup` drops. Its test declares a new `err`, the
      `*Error` obtained by type assertion, and the `else if err != nil` branch
      tests that variable: a structured "no such entry" returns no addresses
      on purpose, and every error that is not an `*Error` (a closed or broken
      connection, a failed write) leaves it nil, so `lookup` goes on to fetch
      the nil listing's entries and returns no addresses and no error. */
  predicate ListingErrorDropped(e: Err) {
    !IsStructured(e) || e.code == NoEntCode
  }

  /** `lookup`: the addresses registered for cluster `name` on the bootstrap
      connection, as of its current revision. An absent cluster directory is
      an empty answer, and so is a listing that failed with anything but a
      structured error. */
  function Lookup(calls: Calls, name: string): (r: Result<seq<string>, Err>)
    requires LookupEnds(calls, name)
    ensures calls(RevRequest()).Failure? ==> r == Failure(calls(RevRequest()).error)
    ensures calls(RevRequest()).Success? ==>
      var listed := Getdir(calls, NsDir(name), calls(RevRequest()).value.rev, 0, -1);
      && (listed.Failure? && ListingErrorDropped(listed.error) ==> r == Success([]))
      && (listed.Failure? && !ListingErrorDropped(listed.error) ==> r == Failure(listed.error))
      && (listed.Success? ==> r == FetchAll(calls, NsDir(name), calls(RevRequest()).value.rev, listed.value))
  {
    match calls(RevRequest())
    case Failure(e) => Failure(e)
    case Success(resp) =>
      var rev := resp.rev;
      match Getdir(calls, NsDir(name), rev, 0, -1)
      case Failure(e) => if ListingErrorDropped(e) then Success([]) else Failure(e)
      case Success(names) => FetchAll(calls, NsDir(name), rev, names)
  }

  /** Every address `lookup` returns is the body of a registration file under
      the cluster's directory, for a name the listing produced: the i-th
      address is the body of the i-th listed name. */
  lemma LookupReadsRegistrations(calls: Calls, name: string)
    requires LookupEnds(calls, name)
    requires Lookup(calls, name).Success?
    ensures calls(RevRequest()).Success?
    ensures forall addr :: addr in Lookup(calls, name).value ==> exists n, resp ::
      && calls(GetRequest(NsDir(name) + "/" + n, Some(calls(RevRequest()).value.rev))) == Success(resp)
      && addr == Text(resp.value)
    ensures
      var rev := calls(RevRequest()).value.rev;
      var listed := Getdir(calls, NsDir(name), rev, 0, -1);
      var r := Lookup(calls, name).value;
      |r| > 0 ==> listed.Success? && |r| == |listed.value| && forall i :: 0 <= i < |r| ==>
        var got := calls(GetRequest(NsDir(name) + "/" + listed.value[i], Some(rev)));
        got.Success? && r[i] == Text(got.value.value)
  {
    var r := Lookup(calls, name).value;
    var rev := calls(RevRequest()).value.rev;
    var listed := Getdir(calls, NsDir(name), rev, 0, -1);
    if listed.Success? {
      forall addr | addr in r
        ensures exists n, resp ::
          && calls(GetRequest(NsDir(name) + "/" + n, Some(rev))) == Success(resp)
          && addr == Text(resp.value)
      {
        var i :| 0 <= i < |r| && r[i] == addr;
        var n := listed.value[i];
        var resp := calls(GetRequest(NsDir(name) + "/" + n, Some(rev))).value;
        assert calls(GetRequest(NsDir(name) + "/" + n, Some(rev))) == Success(resp);
      }
    }
  }

  // ---------------------------------------------------------------- dialUri

  /** How `dialUri` ends: a connection to `addr`, an error (with the address
      whose connection was opened and then closed again, if any), or a run-time
      panic. */
  datatype Dialed =
    | Connected(addr: string)
    | DialError(err: Err, closed: Option<string>)
    | Panicked

  /** The addresses to choose from, or the outcome `dialUri` returns before
      choosing. */
  datatype Candidates = Listed(addrs: seq<string>) | Unlisted(outcome: Dialed)

  /** Every cluster listing on every connection eventually ends. */
  ghost predicate ListingsEnd(net: Net) {
    forall addr, name :: LookupEnds(net.calls(addr), name)
  }

  /** The candidate addresses of a parsed URI: with a cluster name and a
      bootstrap URI, the addresses `lookup` finds over a connection dialled from
      the bootstrap URI; otherwise the `ca` values; with neither, an invalid
      URI. */
  function CandidatesOf(q: Query, buri: string, net: Net): (c: Candidates)
    requires ListingsEnd(net)
    ensures !("cn" in q && buri != "") && "ca" in q ==> c == Listed(q["ca"])
    ensures !("cn" in q && buri != "") && "ca" !in q ==> c == Unlisted(DialError(InvalidUri, None))
    ensures "cn" in q && buri != "" && !DialUri(buri, "", net).Connected? ==>
      c == Unlisted(DialUri(buri, "", net))
    ensures "cn" in q && buri != "" && DialUri(buri, "", net).Connected? ==>
      var found := Lookup(net.calls(DialUri(buri, "", net).addr), q["cn"][0]);
      && (found.Success? ==> c == Listed(found.value))
      && (found.Failure? ==> c == Unlisted(DialError(found.error, None)))
    decreases |buri|, 0
  {
    if "cn" in q && buri != "" then
      match DialUri(buri, "", net)
      case Connected(b) =>
        (match Lookup(net.calls(b), q["cn"][0])
         case Failure(e) => Unlisted(DialError(e, None))
         case Success(addrs) => Listed(addrs))
      case other => Unlisted(other)
    else if "ca" in q then Listed(q["ca"])
    else Unlisted(DialError(InvalidUri, None))
  }

  /** Dial one candidate chosen by `pick`, then present the secret if the URI
      carries one; a refused secret closes the fresh connection. An empty
      candidate list divides by zero. */
  function Connect(uri: string, buri: string, q: Query, addrs: seq<string>, net: Net): (d: Dialed)
    ensures |addrs| == 0 <==> d == Panicked
    ensures d.Connected? ==> d.addr in addrs && net.dial(d.addr).None?
    ensures d.Connected? && "sk" in q ==> net.calls(d.addr)(AccessRequest(q["sk"][0])).Success?
    ensures d.DialError? && d.closed.Some? ==>
      && "sk" in q && d.closed.value in addrs && net.dial(d.closed.value).None?
      && net.calls(d.closed.value)(AccessRequest(q["sk"][0])) == Failure(d.err)
    ensures |addrs| > 0 ==>
      var addr := addrs[net.pick(uri, buri) % |addrs|];
      (d.Connected? ==> d.addr == addr) && (d.DialError? && d.closed.Some? ==> d.closed.value == addr)
    // the outcome for the picked candidate: its dial error; the refusal of the
    // secret, with its fresh connection closed; otherwise a connection to it
    ensures |addrs| > 0 ==>
      var addr := addrs[net.pick(uri, buri) % |addrs|];
      var access := net.calls(addr)(AccessRequest(if "sk" in q then q["sk"][0] else ""));
      && (net.dial(addr).Some? ==> d == DialError(net.dial(addr).value, None))
      && (net.dial(addr).None? && "sk" in q && access.Failure? ==> d == DialError(access.error, Some(addr)))
      && (net.dial(addr).None? && ("sk" !in q || access.Success?) ==> d == Connected(addr))
  {
    if |addrs| == 0 then Panicked
    else
      var addr := addrs[net.pick(uri, buri) % |addrs|];
      match net.dial(addr)
      case Some(e) => DialError(e, None)
      case None =>
        if "sk" in q then
          match net.calls(addr)(AccessRequest(q["sk"][0]))
          case Failure(e) => DialError(e, Some(addr))
          case Success(_) => Connected(addr)
        else Connected(addr)
  }

  /** `dialUri`: resolve `uri` (with `buri` as the bootstrap URI for a
      cluster name) and connect. */
  function DialUri(uri: string, buri: string, net: Net): (d: Dialed)
    requires ListingsEnd(net)
    ensures !HasPrefix(uri, UriPrefix) ==> d == DialError(InvalidUri, None)
    ensures HasPrefix(uri, UriPrefix) && net.parse(uri[|UriPrefix|..]).Failure? ==>
      d == DialError(net.parse(uri[|UriPrefix|..]).error, None)
    ensures HasPrefix(uri, UriPrefix) && net.parse(uri[|UriPrefix|..]).Success? ==>
      var q := net.parse(uri[|UriPrefix|..]).value;
      && (CandidatesOf(q, buri, net).Listed? ==> d == Connect(uri, buri, q, CandidatesOf(q, buri, net).addrs, net))
      && (CandidatesOf(q, buri, net).Unlisted? ==> d == CandidatesOf(q, buri, net).outcome)
    decreases |buri|, 1
  {
    if !HasPrefix(uri, UriPrefix) then DialError(InvalidUri, None)
    else
      match net.parse(uri[|UriPrefix|..])
      case Failure(e) => DialError(e, None)
      case Success(q) =>
        match CandidatesOf(q, buri, net)
        case Unlisted(outcome) => outcome
        case Listed(addrs) => Connect(uri, buri, q, addrs, net)
  }

  // ---------------------------------------------------------------- properties

  /** A connection is only ever made to an address the URI (or the cluster's
      registrations) offered, and only after the secret, if any, was accepted. */
  lemma ConnectedToCandidate(uri: string, buri: string, net: Net)
    requires ListingsEnd(net)
    requires DialUri(uri, buri, net).Connected?
    ensures HasPrefix(uri, UriPrefix) && net.parse(uri[|UriPrefix|..]).Success?
    ensures
      var q := net.parse(uri[|UriPrefix|..]).value;
      var addr := DialUri(uri, buri, net).addr;
      && CandidatesOf(q, buri, net).Listed?
      && addr in CandidatesOf(q, buri, net).addrs
      && net.dial(addr).None?
      && ("sk" in q ==> net.calls(addr)(AccessRequest(q["sk"][0])).Success?)
  {
  }

  /** A URI naming addresses directly (and no cluster) dials the picked one of
      them, e.g. `doozer:?ca=1.2.3.4:9999` dials 1.2.3.4:9999. */
  lemma DirectAddresses(uri: string, buri: string, net: Net)
    requires ListingsEnd(net)
    requires HasPrefix(uri, UriPrefix) && net.parse(uri[|UriPrefix|..]).Success?
    requires
      var q := net.parse(uri[|UriPrefix|..]).value;
      "cn" !in q && "ca" in q && "sk" !in q
    ensures
      var addrs := net.parse(uri[|UriPrefix|..]).value["ca"];
      var addr := addrs[net.pick(uri, buri) % |addrs|];
      DialUri(uri, buri, net) == if net.dial(addr).None? then Connected(addr) else DialError(net.dial(addr).value, None)
  {
  }

  /** A cluster name without a bootstrap URI, and no `ca`, is an invalid URI. */
  lemma ClusterNeedsBootstrap(uri: string, net: Net)
    requires ListingsEnd(net)
    requires HasPrefix(uri, UriPrefix) && net.parse(uri[|UriPrefix|..]).Success?
    requires "ca" !in net.parse(uri[|UriPrefix|..]).value
    ensures DialUri(uri, "", net) == DialError(InvalidUri, None)
  {
  }

  /** An absent cluster directory is an empty answer from `lookup`. */
  lemma AbsentClusterIsEmpty(calls: Calls, name: string)
    requires LookupEnds(calls, name)
    requires calls(RevRequest()).Success?
    requires calls(GetdirRequest(NsDir(name), calls(RevRequest()).value.rev, 0)) == Failure(Server(NoEntCode))
    ensures Lookup(calls, name) == Success([])
  {
  }

  /** An absent cluster directory leaves no candidate, and choosing among no
      candidates panics (`rand.Int() % 0`) instead of reporting an error. */
  lemma AbsentClusterPanics(uri: string, buri: string, net: Net, b: string)
    requires ListingsEnd(net)
    requires HasPrefix(uri, UriPrefix) && net.parse(uri[|UriPrefix|..]).Success?
    requires "cn" in net.parse(uri[|UriPrefix|..]).value && buri != ""
    requires DialUri(buri, "", net) == Connected(b)
    requires
      var calls := net.calls(b);
      var name := net.parse(uri[|UriPrefix|..]).value["cn"][0];
      && calls(RevRequest()).Success?
      && calls(GetdirRequest(NsDir(name), calls(RevRequest()).value.rev, 0)) == Failure(Server(NoEntCode))
    ensures DialUri(uri, buri, net) == Panicked
  {
    var q := net.parse(uri[|UriPrefix|..]).value;
    AbsentClusterIsEmpty(net.calls(b), q["cn"][0]);
  }

  /** A bootstrap connection that fails while listing (closed, end of stream,
      a failed write: any error that is not an `*Error`) also gives an empty
      answer instead of its error. */
  lemma LostListingIsEmpty(calls: Calls, name: string, o: nat)
    requires LookupEnds(calls, name)
    requires calls(RevRequest()).Success?
    requires
      var ask := GetdirAnswers(calls, NsDir(name), calls(RevRequest()).value.rev);
      Runs(ask, 0, o) && ask(o).Failure? && !IsStructured(ask(o).error)
    ensures Lookup(calls, name) == Success([])
  {
    var rev := calls(RevRequest()).value.rev;
    var ask := GetdirAnswers(calls, NsDir(name), rev);
    var listed := Getdir(calls, NsDir(name), rev, 0, -1);
    if listed.Success? {
      EntriesBeforeStop(ask, PathOf, 0, listed.value, o);
    }
  }

  /** A server error other than "no such entry" or "out of range", at
      whatever offset the listing meets it, aborts `lookup` with that error. */
  lemma ServerListingErrorAborts(calls: Calls, name: string, code: Code, o: nat)
    requires LookupEnds(calls, name)
    requires calls(RevRequest()).Success? && code != NoEntCode && code != RangeCode
    requires
      var ask := GetdirAnswers(calls, NsDir(name), calls(RevRequest()).value.rev);
      Runs(ask, 0, o) && ask(o) == Failure(Server(code))
    ensures Lookup(calls, name) == Failure(Server(code))
  {
    var rev := calls(RevRequest()).value.rev;
    var ask := GetdirAnswers(calls, NsDir(name), rev);
    var listed := Getdir(calls, NsDir(name), rev, 0, -1);
    if listed.Success? {
      EntriesBeforeStop(ask, PathOf, 0, listed.value, o);
    }
  }

  /** A cluster lookup that found no address, whether the cluster directory
      is absent or the bootstrap connection broke while listing, leaves no
      candidate, and choosing among no candidates panics (`rand.Int() % 0`)
      instead of reporting an error. */
  lemma EmptyLookupPanics(uri: string, buri: string, net: Net, b: string)
    requires ListingsEnd(net)
    requires HasPrefix(uri, UriPrefix) && net.parse(uri[|UriPrefix|..]).Success?
    requires "cn" in net.parse(uri[|UriPrefix|..]).value && buri != ""
    requires DialUri(buri, "", net) == Connected(b)
    requires Lookup(net.calls(b), net.parse(uri[|UriPrefix|..]).value["cn"][0]) == Success([])
    ensures DialUri(uri, buri, net) == Panicked
  {
  }

  /** In particular, a bootstrap connection that closes before answering the
      first GETDIR makes `dialUri` panic. */
  lemma ClosedBootstrapPanics(uri: string, buri: string, net: Net, b: string)
    requires ListingsEnd(net)
    requires HasPrefix(uri, UriPrefix) && net.parse(uri[|UriPrefix|..]).Success?
    requires "cn" in net.parse(uri[|UriPrefix|..]).value && buri != ""
    requires DialUri(buri, "", net) == Connected(b)
    requires
      var calls := net.calls(b);
      var name := net.parse(uri[|UriPrefix|..]).value["cn"][0];
      && calls(RevRequest()).Success?
      && calls(GetdirRequest(NsDir(name), calls(RevRequest()).value.rev, 0)) == Failure(Closed)
    ensures DialUri(uri, buri, net) == Panicked
  {
    var name := net.parse(uri[|UriPrefix|..]).value["cn"][0];
    LostListingIsEmpty(net.calls(b), name, 0);
    EmptyLookupPanics(uri, buri, net, b);
  }

  /** A URI whose picked candidate dials but refuses the `sk` secret ends in
      that refusal, with the candidate's fresh connection closed. */
  lemma RefusedSecretIsReported(uri: string, buri: string, net: Net)
    requires ListingsEnd(net)
    requires HasPrefix(uri, UriPrefix) && net.parse(uri[|UriPrefix|..]).Success?
    requires
      var q := net.parse(uri[|UriPrefix|..]).value;
      var c := CandidatesOf(q, buri, net);
      && c.Listed? && |c.addrs| > 0 && "sk" in q
      && net.dial(c.addrs[net.pick(uri, buri) % |c.addrs|]).None?
      && net.calls(c.addrs[net.pick(uri, buri) % |c.addrs|])(AccessRequest(q["sk"][0])).Failure?
    ensures
      var q := net.parse(uri[|UriPrefix|..]).value;
      var c := CandidatesOf(q, buri, net);
      var addr := c.addrs[net.pick(uri, buri) % |c.addrs|];
      DialUri(uri, buri, net) == DialError(net.calls(addr)(AccessRequest(q["sk"][0])).error, Some(addr))
  {
  }

  /** A refused secret closes the connection just opened and reports the
      refusal; the refusal is either the URI's own secret at the final step or
      one met while dialling the bootstrap URI, passed on unchanged. */
  lemma RefusedSecretCloses(uri: string, buri: string, net: Net)
    requires ListingsEnd(net)
    requires DialUri(uri, buri, net).DialError? && DialUri(uri, buri, net).closed.Some?
    ensures HasPrefix(uri, UriPrefix) && net.parse(uri[|UriPrefix|..]).Success?
    ensures
      var q := net.parse(uri[|UriPrefix|..]).value;
      var d := DialUri(uri, buri, net);
      || ("sk" in q && net.calls(d.closed.value)(AccessRequest(q["sk"][0])) == Failure(d.err))
      || ("cn" in q && buri != "" && DialUri(buri, "", net) == d)
  {
  }
}

=== FILE: wrappers.dfy ===
/** Wrappers used throughout the model: `Option` stands for
    Go's nilable pointers and map slots, `Result` for a `(value, error)` pair
    whose error is either nil or not. */
module Wrappers {

  datatype Option<+T> = None | Some(value: T)

  datatype Result<+R, +E> = Success(value: R) | Failure(error: E)
}
